=== FILE: README.md ===
# porkbun-ddns-rust, modelled in Dafny

A model of the dynamic-DNS updater `porkbun-ddns-rust`. One run loads
`config.toml` (credentials, domain, fixed address, address family), falls back
to the `PORKBUN_SECRET_API_KEY` / `PORKBUN_API_KEY` environment variables for
credentials, learns the public address (configured, or from Porkbun's `/ping`),
queries the existing record of the right type, and either leaves it alone,
replaces it (delete, then create, carrying over TTL, priority and notes) or
creates a fresh one.

The run is a pure function, `Workflow.Main` / `Workflow.Update`. The provider's
answers come from an oracle (`Workflow.Oracle`): the ping's `yourIp`, the
records response, and the delete and create statuses. Each call may also fail
in transport (`Reply.Failed`). The function returns the run's result and the
ordered trace of requests it issued. Each request records its endpoint host,
its call, and its body: the credentials alone, or the record to create. The
URL path of a call is rendered by `Api.PathOf`.

Modules:

- `Wrappers`: `Option` and `Result`.
- `Errors`: the error variants of `src/error.rs`, and `VarError`.
- `Configuration` (`src/config.rs`): `Config`, `Keys`, `Domain`, `Ip`, the
  derived default, `read` over an abstract file, `env_keys` over an environment
  map, and `try_keys`.
- `Paths`: splitting a string at a separator and joining it back, with both
  round trips proved.
- `Api` (`src/main.rs`): the endpoint hosts, the record type, `Record`,
  `RecordsResponse`, `CreateRecord`, the request paths and the full domain.
  A parser `Api.Parse` reads a path back into its call.
- `Workflow` (`src/main.rs`, `main`): credential overlay, IP resolution, the
  records query, reconciliation, delete and create.
- `Properties`: the safety properties of a run, stated on its result and trace.

The unreachable branch of `try_keys` is a precondition of
`Configuration.TryKeys` (`c.keys.Some?`). Dafny checks it at every request the
model builds, so the branch is never reached from `main`.

Two details of the code that the model follows:
- `env::var` also fails when a value is not valid Unicode. The environment
  therefore maps names to `Text(s)` or `NonUnicode`.
- A delete or create status that is absent or not a string counts as failure.

## Model

| member | source | states |
|---|---|---|
| Configuration.DefaultIsBlank | src/config.rs:11-33 | the default configuration has no keys, empty subdomain, base and address, and selects IPv4 |
| Configuration.Read | src/config.rs:36-49 | a missing file writes the default template and fails with `NoConfig("config.toml")`; an unreadable file gives `Io`, a malformed one `Parse`; only a present file yields a configuration, unchanged |
| Configuration.GetVar | src/config.rs:52-53 | a variable reads successfully exactly when it is set to valid Unicode; unset gives `NotPresent`, non-Unicode gives `NotUnicode` |
| Configuration.EnvKeys | src/config.rs:50-56 | succeeds exactly when both variables are readable, and then sets `keys` to (secret, api) in that field order; the secret's error wins when both fail; on failure the configuration is unchanged; `domain` and `ip` are never modified |
| Configuration.TryKeys | src/config.rs:57-63 | defined only when keys are present, and returns exactly the stored keys |
| Workflow.Prepare | src/main.rs:13-16 | a loaded configuration always has keys; keys from the file are kept; without them, loading succeeds exactly when both environment variables are readable; domain and ip come from the file |
| Workflow.Main | src/main.rs:12-16 | without a configuration file nothing is sent and the run fails; a file with keys is used as written |
| Api.EndpointFor | src/main.rs:20-23 | the dual-stack host is chosen exactly when `ipv6` is set, the IPv4-only host exactly when it is not |
| Api.RecordTypeFor | src/main.rs:47-50 | "AAAA" exactly when `ipv6` is set, "A" exactly when it is not |
| Workflow.ResolveIp | src/main.rs:24-38 | a configured address is used verbatim with no request; otherwise one ping is sent and the result is `yourIp`, `NoIp` when it is missing, or `Network` when the call failed |
| Properties.ResolveIpMeaning | src/main.rs:24-38 | the resolved address is exactly the configured address or the ping's `yourIp`; resolution fails exactly when neither exists, with `Network` for a failed call and `NoIp` otherwise |
| Properties.FixedAddressSkipsPing | src/main.rs:24-38 | with a configured address no ping is ever issued, every create publishes that address, and every success reports it |
| Properties.MissingIpStops | src/main.rs:31-35 | a ping answer without a string `yourIp` ends the run with `NoIp`; the ping is the only request |
| Api.FullDomainLabels | src/main.rs:40-45 | the full domain is the base when the subdomain is empty, and otherwise its labels are the subdomain's labels (one or several) followed by the base's labels |
| Workflow.Update | src/main.rs:18-124 | every request goes to the host chosen by `ipv6`, and every request body, the create's included, carries the configured keys; the records query asks for the configured base, the selected record type and the configured subdomain, in that order; a run issues between one and four requests |
| Properties.FamilySelectsHostAndType | src/main.rs:20-50 | every request's host, the queried record type and the created record type follow `ipv6` in both directions |
| Api.PathOfInjective | src/main.rs:56-59 | two calls whose values hold no '/' are posted to the same path only if they are the same call |
| Api.ParsePathOf | src/main.rs:79 | a rendered path parses back to its call, so the delete URL names exactly the base domain and the record id |
| Workflow.QueryRequest | src/main.rs:56-64 | the records query names the configured base, the record type selected by `ipv6` and the configured subdomain, and carries only the configured keys |
| Properties.FailedPingStops | src/main.rs:26-30 | a ping call that fails in transport or decoding ends the run with `Network`, and the ping is the only request |
| Properties.FailedQueryStops | src/main.rs:65-67 | a records status other than "SUCCESS" ends the run with `NoRecords`, and nothing is deleted or created |
| Properties.FailedQueryCallStops | src/main.rs:60-64 | a records query that fails in transport or decoding ends the run with `Network`, and nothing is deleted or created |
| Properties.OnlyFirstRecordMatters | src/main.rs:69 | records after the first have no effect on the result or on any request |
| Properties.MatchingRecordIsKept | src/main.rs:69-78 | a first record already holding the address ends the run successfully, with nothing deleted or created |
| Workflow.Reconcile | src/main.rs:69-98 | a matching first record ends the run with no further request; a stale one is deleted by its id, and only a "SUCCESS" answer leads to the create carrying its `ttl`, `prio` and `notes`, any other answer giving `Delete` (or `Network` if the call failed); an empty list goes straight to a create with no `ttl`, `prio` or `notes` |
| Properties.StaleRecordIsReplaced | src/main.rs:79-110 | a stale first record is deleted by its id, then exactly one create follows it, carrying that record's `ttl`, `prio` and `notes`, named by the subdomain and holding the address; the run succeeds exactly when the create answers "SUCCESS", and any other received answer gives `Create` |
| Properties.FailedDeleteBlocksCreate | src/main.rs:85-92 | a delete that does not answer "SUCCESS" gives `Delete` (or `Network` if the call failed), and no create is issued |
| Properties.EmptyListCreatesFresh | src/main.rs:96-110 | with no records nothing is deleted, and one create is issued with no `ttl`, `prio` or `notes`, named by the subdomain and holding the address; any create answer other than "SUCCESS" gives `Create` |
| Workflow.DeleteRequest | src/main.rs:79-84 | the delete request names the base domain and the record id, and carries only the configured keys |
| Workflow.CreateRequest | src/main.rs:100-110 | the create request posts to the base domain with the subdomain, not the full domain, as the name and the address as the content |
| Workflow.CreateStep | src/main.rs:111-124 | the create request is issued last; the run succeeds exactly when it answers "SUCCESS", reporting the full domain and address, any other received status gives `Create`, and a failed call gives `Network` |
| Properties.UpdateIsStaged | src/main.rs:24-115 | requests are issued in the order ping, query, delete, create, and at most one of each |
| Properties.DeletesAreGuarded | src/main.rs:69-92 | for any provider answers, a delete is only issued for the first listed record, keyed by its id, and only when its content differs from the address |
| Properties.CreatesAreGuarded | src/main.rs:93-110 | for any provider answers, a create is only issued after a successful delete of a stale first record or after an empty list, and carries that record's `ttl`, `prio` and `notes`, or none |
| Properties.SuccessMeansCurrent | src/main.rs:71-124 | a run succeeds exactly when the first listed record already held the address, or when the create it issued answered "SUCCESS" |
| Properties.CredentialsReachEveryRequest | src/main.rs:13-16 | every request carries the file's credentials or, when the file has none, the two environment values |
| Properties.MissingCredentialsStop | src/config.rs:50-55 | with no credentials in the file and an unreadable variable, the run fails with that variable's error (the secret key first) before any request |
| Properties.FirstRunWritesTemplate | src/config.rs:43-47 | without a file, the default template is written and the run stops with `NoConfig` before any request |
| Properties.PresentConfigIsUsed | src/config.rs:39-41 | a configuration file with credentials drives the update exactly as written |

## Left out

- HTTP transport and JSON: the `ureq` agent, `send_json` and `read_json` are library calls. Every answer is an oracle input. Transport, HTTP-status and decoding failures are one `Network` error.
- File I/O and TOML: the existence check, reading, writing and (de)serialising `config.toml` are abstracted to `Missing | Unreadable | Malformed | Present(config)`. The TOML round trip of the default configuration cannot be stated without the `toml` crate.
- Configuration.Read: an I/O or serialisation failure while writing the template (the `?` on `to_string_pretty` and `fs::write`) is not modelled; a missing file always yields `NoConfig`.
- Process environment: replaced by a map from variable name to value.
- Output: the `println!` status lines and the `Display`/`Debug` messages of the errors. `Outcome` only carries the values the success line reports.
- The `type` field of a returned record is decoded but never used by the program, and is only carried in `Api.Record`.
- Api.ParsePathOf: assumes the base domain, record id, record type and subdomain contain no '/'. The program inserts them into the URL unescaped, so with a '/' the path would not identify the call.
- What the provider does with a delete or create, and the window between a successful delete and the create, are outside the program.

=== FILE: api.dfy ===
/** The provider's JSON API as the program uses it (src/main.rs): the two
    endpoint hosts, the request paths, the request bodies and the shape of a
    DNS record in the records response. */
module Api {
  import opened Wrappers
  import opened Configuration
  import Paths

  /** Host reachable over both address families. */
  const Endpoint6: string := "https://api.porkbun.com/api/json/v3"
  /** Host reachable over IPv4 only, so that ping reports the IPv4 address. */
  const Endpoint4: string := "https://api-ipv4.porkbun.com/api/json/v3"

  /** The endpoint chosen by the address-family flag. */
  function EndpointFor(ipv6: bool): (e: string)
    ensures e == Endpoint6 <==> ipv6
    ensures e == Endpoint4 <==> !ipv6
  {
    if ipv6 then Endpoint6 else Endpoint4
  }

  /** The DNS record type chosen by the address-family flag. */
  function RecordTypeFor(ipv6: bool): (t: string)
    ensures t == "AAAA" <==> ipv6
    ensures t == "A" <==> !ipv6
  {
    if ipv6 then "AAAA" else "A"
  }

  /** One element of the records response (`Record`). */
  datatype Record = Record(
    id: string,
    recordType: string,
    content: string,
    ttl: Option<string>,
    prio: Option<string>,
    notes: Option<string>)

  /** The typed records response (`RecordsResponse`). */
  datatype RecordsResponse = RecordsResponse(status: string, records: seq<Record>)

  /** The body of a create request (`CreateRecord`). */
  datatype CreateRecord = CreateRecord(
    secretapikey: string,
    apikey: string,
    name: string,
    recordType: string,
    content: string,
    ttl: Option<string>,
    prio: Option<string>,
    notes: Option<string>)

  /** A request body: the credentials alone, or a record to create. */
  datatype Body = KeysOnly(keys: Keys) | NewRecord(record: CreateRecord)

  /** The operation a request performs, with the values its path carries. */
  datatype Call =
    | PingCall
    | RetrieveCall(base: string, recordType: string, subdomain: string)
    | DeleteCall(base: string, id: string)
    | CreateCall(base: string)

  /** One POST issued to the provider. */
  datatype Request = Request(endpoint: string, call: Call, body: Body)

  /** The path appended to the endpoint for `call`. */
  function PathOf(call: Call): string {
    match call
    case PingCall => "/ping"
    case RetrieveCall(base, t, sub) => "/dns/retrieveByNameType/" + base + "/" + t + "/" + sub
    case DeleteCall(base, id) => "/dns/delete/" + base + "/" + id
    case CreateCall(base) => "/dns/create/" + base
  }

  /** The credentials a request body carries. */
  function BodyKeys(b: Body): Keys {
    match b
    case KeysOnly(k) => k
    case NewRecord(r) => Keys(r.secretapikey, r.apikey)
  }

  /** The path segments of `call`, in order, after the leading empty one. */
  function Segments(call: Call): seq<string> {
    match call
    case PingCall => ["", "ping"]
    case RetrieveCall(base, t, sub) => ["", "dns", "retrieveByNameType", base, t, sub]
    case DeleteCall(base, id) => ["", "dns", "delete", base, id]
    case CreateCall(base) => ["", "dns", "create", base]
  }

  /** The values a call carries in its path contain no '/'. */
  predicate PathSafe(call: Call) {
    Paths.SepFree(Segments(call), '/')
  }

  /** Reads a request path back into the call it names, if any. */
  function Parse(path: string): (r: Option<Call>)
    ensures r.Some? ==> PathSafe(r.value)
  {
    var seg := Paths.Split(path, '/');
    Paths.SplitSepFree(path, '/');
    if seg == ["", "ping"] then Some(PingCall)
    else if |seg| == 6 && seg[..3] == ["", "dns", "retrieveByNameType"] then
      assert Segments(RetrieveCall(seg[3], seg[4], seg[5])) == seg;
      Some(RetrieveCall(seg[3], seg[4], seg[5]))
    else if |seg| == 5 && seg[..3] == ["", "dns", "delete"] then
      assert Segments(DeleteCall(seg[3], seg[4])) == seg;
      Some(DeleteCall(seg[3], seg[4]))
    else if |seg| == 4 && seg[..3] == ["", "dns", "create"] then
      assert Segments(CreateCall(seg[3])) == seg;
      Some(CreateCall(seg[3]))
    else None
  }

  /** The query path is its six segments joined with '/'. */
  lemma RetrievePathIsJoin(base: string, t: string, sub: string)
    ensures PathOf(RetrieveCall(base, t, sub)) == Paths.Join(Segments(RetrieveCall(base, t, sub)), '/')
  {
    Paths.Join6("", "dns", "retrieveByNameType", base, t, sub, '/');
    assert "" + "/" + "dns" + "/" + "retrieveByNameType" + "/" == "/dns/retrieveByNameType/";
  }

  /** The delete path is its five segments joined with '/'. */
  lemma DeletePathIsJoin(base: string, id: string)
    ensures PathOf(DeleteCall(base, id)) == Paths.Join(Segments(DeleteCall(base, id)), '/')
  {
    Paths.Join5("", "dns", "delete", base, id, '/');
    assert "" + "/" + "dns" + "/" + "delete" + "/" == "/dns/delete/";
  }

  /** The create path is its four segments joined with '/'. */
  lemma CreatePathIsJoin(base: string)
    ensures PathOf(CreateCall(base)) == Paths.Join(Segments(CreateCall(base)), '/')
  {
    Paths.Join4("", "dns", "create", base, '/');
    assert "" + "/" + "dns" + "/" + "create" + "/" == "/dns/create/";
  }

  /** The rendered path is its segments joined with '/'. */
  lemma PathOfIsJoin(call: Call)
    ensures PathOf(call) == Paths.Join(Segments(call), '/')
  {
    match call
    case PingCall => Paths.JoinCons("", ["ping"], '/');
    case RetrieveCall(base, t, sub) => RetrievePathIsJoin(base, t, sub);
    case DeleteCall(base, id) => DeletePathIsJoin(base, id);
    case CreateCall(base) => CreatePathIsJoin(base);
  }

  /** A request path names exactly the call it was rendered from, as long as
      the base domain, record id, record type and subdomain hold no '/'. */
  lemma ParsePathOf(call: Call)
    requires PathSafe(call)
    ensures Parse(PathOf(call)) == Some(call)
  {
    PathOfIsJoin(call);
    Paths.SplitJoin(Segments(call), '/');
  }

  /** Distinct path-safe calls are posted to distinct paths. */
  lemma PathOfInjective(a: Call, b: Call)
    requires PathSafe(a) && PathSafe(b)
    requires PathOf(a) == PathOf(b)
    ensures a == b
  {
    ParsePathOf(a);
    ParsePathOf(b);
  }

  /** The name the record answers to: `subdomain.base`, or `base` when there
      is no subdomain. */
  function FullDomain(d: Domain): string {
    if d.subdomain == "" then d.base else d.subdomain + "." + d.base
  }

  /** The labels of the full domain are the subdomain's labels followed by
      the base's labels, or just the base when there is no subdomain. */
  lemma FullDomainLabels(d: Domain)
    ensures d.subdomain == "" ==> FullDomain(d) == d.base
    ensures d.subdomain != "" ==>
              Paths.Split(FullDomain(d), '.') == Paths.Split(d.subdomain, '.') + Paths.Split(d.base, '.')
  {
    if d.subdomain != "" {
      Paths.SplitConcat(d.subdomain, '.', d.base);
      assert d.subdomain + "." + d.base == d.subdomain + ['.'] + d.base;
    }
  }
}

=== FILE: configuration.dfy ===
/** The configuration of one run (src/config.rs): credentials, target domain
    and address selection, how it is loaded, and the credential overlay taken
    from the process environment. */
module Configuration {
  import opened Wrappers
  import opened Errors

  /** The API credential pair sent with every request. */
  datatype Keys = Keys(secretapikey: string, apikey: string)

  /** The record name: `subdomain` may be empty, meaning the bare `base`. */
  datatype Domain = Domain(subdomain: string, base: string)

  /** A fixed `address` (empty means "ask the provider") and the address family. */
  datatype Ip = Ip(address: string, ipv6: bool)

  datatype Config = Config(keys: Option<Keys>, domain: Domain, ip: Ip)

  /** The derived `Default`: no keys, empty strings, `ipv6 = false`. */
  function Default(): Config {
    Config(None, Domain("", ""), Ip("", false))
  }

  /** The file the configuration is read from, relative to the working directory. */
  const ConfigPath: string := "config.toml"

  /** What the configuration file holds when a run starts. Reading it and
      parsing TOML are abstracted to these four cases. */
  datatype ConfigFile =
    | Missing
    | Unreadable
    | Malformed
    | Present(config: Config)

  /** The result of loading, and the template written to disk, if any. */
  datatype Loaded = Loaded(result: Result<Config, Error>, written: Option<Config>)

  /** `Config::read`: a missing file is replaced by the default template and
      the run stops with `NoConfig`; otherwise the file's contents are used. */
  function Read(file: ConfigFile): (l: Loaded)
    ensures l.written.Some? <==> file.Missing?
    ensures file.Missing? ==> l == Loaded(Err(NoConfig(ConfigPath)), Some(Default()))
    ensures l.result.Ok? <==> file.Present?
    ensures file.Present? ==> l.result.value == file.config
    ensures file.Unreadable? ==> l.result == Err(Io)
    ensures file.Malformed? ==> l.result == Err(Parse)
  {
    match file
    case Missing => Loaded(Err(NoConfig(ConfigPath)), Some(Default()))
    case Unreadable => Loaded(Err(Io), None)
    case Malformed => Loaded(Err(Parse), None)
    case Present(c) => Loaded(Ok(c), None)
  }

  /** The value of one environment variable, as the operating system holds it. */
  datatype EnvValue = Text(text: string) | NonUnicode

  /** The process environment: variable name to value. */
  type Env = map<string, EnvValue>

  const SecretKeyVar: string := "PORKBUN_SECRET_API_KEY"
  const ApiKeyVar: string := "PORKBUN_API_KEY"

  /** `std::env::var`. */
  function GetVar(env: Env, name: string): (r: Result<string, VarError>)
    ensures r.Ok? <==> name in env && env[name].Text?
    ensures r.Ok? ==> r.value == env[name].text
    ensures name !in env ==> r == Err(NotPresent)
    ensures name in env && env[name].NonUnicode? ==> r == Err(NotUnicode)
  {
    if name !in env then Err(NotPresent)
    else match env[name]
      case Text(s) => Ok(s)
      case NonUnicode => Err(NotUnicode)
  }

  /** True when `name` is set to a valid Unicode value. */
  predicate Readable(env: Env, name: string) {
    name in env && env[name].Text?
  }

  /** `Config::env_keys` on `&mut self`: the updated configuration and the
      status. The secret key is read first; `keys` is assigned only after both
      reads succeeded. */
  function EnvKeys(c: Config, env: Env): (r: (Config, Result<(), VarError>))
    ensures r.1.Ok? <==> Readable(env, SecretKeyVar) && Readable(env, ApiKeyVar)
    ensures r.1.Ok? ==> r.0.keys == Some(Keys(env[SecretKeyVar].text, env[ApiKeyVar].text))
    ensures r.1.Err? ==> r.0 == c
    ensures r.0.domain == c.domain && r.0.ip == c.ip
    ensures !Readable(env, SecretKeyVar) ==> r.1 == Err(GetVar(env, SecretKeyVar).error)
    ensures Readable(env, SecretKeyVar) && !Readable(env, ApiKeyVar) ==>
              r.1 == Err(GetVar(env, ApiKeyVar).error)
  {
    match GetVar(env, SecretKeyVar)
    case Err(e) => (c, Err(e))
    case Ok(secret) =>
      match GetVar(env, ApiKeyVar)
      case Err(e) => (c, Err(e))
      case Ok(api) => (c.(keys := Some(Keys(secret, api))), Ok(()))
  }

  /** `Config::try_keys`: only defined once credentials are present, which is
      what makes its `unreachable!()` branch unreachable. */
  function TryKeys(c: Config): (k: Keys)
    requires c.keys.Some?
    ensures c.keys == Some(k)
  {
    c.keys.value
  }

  /** The blank template has no credentials, empty domain and address, and
      selects IPv4. */
  lemma DefaultIsBlank()
    ensures Default().keys.None?
    ensures Default().domain.subdomain == "" && Default().domain.base == ""
    ensures Default().ip.address == "" && !Default().ip.ipv6
  {
  }
}

=== FILE: errors.dfy ===
/** The program's error kinds (src/error.rs). Messages and the `thiserror`
    derive are presentation and are not modelled; only the variants are. */
module Errors {

  /** Why `std::env::var` failed: the variable is unset, or its value is not
      valid Unicode. */
  datatype VarError = NotPresent | NotUnicode

  datatype Error =
    /** First run: the configuration template was written at `path`. */
    | NoConfig(path: string)
    /** The ping response had no string `yourIp`. */
    | NoIp
    /** The records query did not answer "SUCCESS". */
    | NoRecords
    /** The delete call did not answer "SUCCESS". */
    | Delete
    /** The create call did not answer "SUCCESS". */
    | Create
    /** An underlying I/O failure (`Ior`). */
    | Io
    /** A credential environment variable could not be read (`Varr`). */
    | Var(cause: VarError)
    /** The configuration file is not valid TOML for `Config` (`Parse`). */
    | Parse
    /** The default configuration could not be serialised (`Serr`). */
    | Serialize
    /** Transport, HTTP status or JSON decoding failure of a call (`Ureqr`). */
    | Network
}

=== FILE: paths.dfy ===
/** Splitting a string at a separator and joining it back, used to read the
    segments of a request path and the labels of a domain name. */
module Paths {

  /** The pieces of `s` between occurrences of `sep`, like Rust's `str::split`:
      always at least one piece, one more than there are separators
      (`SplitLength`). */
  function Split(s: string, sep: char): (parts: seq<string>)
    ensures |parts| >= 1
    decreases |s|
  {
    if |s| == 0 then [""]
    else
      var rest := Split(s[1..], sep);
      if s[0] == sep then [""] + rest
      else [[s[0]] + rest[0]] + rest[1..]
  }

  /** How many times `c` occurs in `s`. */
  function Occurrences(s: string, c: char): nat {
    if |s| == 0 then 0 else (if s[0] == c then 1 else 0) + Occurrences(s[1..], c)
  }

  /** A split has one piece more than there are separators. */
  lemma {:induction false} SplitLength(s: string, sep: char)
    ensures |Split(s, sep)| == 1 + Occurrences(s, sep)
    decreases |s|
  {
    if |s| > 0 {
      SplitLength(s[1..], sep);
    }
  }

  /** The pieces glued together with `sep` between neighbours. */
  function Join(parts: seq<string>, sep: char): string
    requires |parts| >= 1
  {
    if |parts| == 1 then parts[0] else parts[0] + [sep] + Join(parts[1..], sep)
  }

  /** No piece contains the separator. */
  predicate SepFree(parts: seq<string>, sep: char) {
    forall i :: 0 <= i < |parts| ==> sep !in parts[i]
  }

  /** Every piece of a split is free of the separator. */
  lemma {:induction false} SplitSepFree(s: string, sep: char)
    ensures SepFree(Split(s, sep), sep)
    decreases |s|
  {
    if |s| > 0 {
      SplitSepFree(s[1..], sep);
      var rest := Split(s[1..], sep);
      if s[0] != sep {
        assert rest[0] in rest;
      }
    }
  }

  /** A string without the separator is a single piece. */
  lemma {:induction false} SplitNoSep(a: string, sep: char)
    requires sep !in a
    ensures Split(a, sep) == [a]
    decreases |a|
  {
    if |a| > 0 {
      assert sep !in a[1..];
      SplitNoSep(a[1..], sep);
      assert [a[0]] + a[1..] == a;
    }
  }

  /** A separator-free prefix followed by the separator is the first piece. */
  lemma {:induction false} SplitAppend(a: string, sep: char, b: string)
    requires sep !in a
    ensures Split(a + [sep] + b, sep) == [a] + Split(b, sep)
    decreases |a|
  {
    var s := a + [sep] + b;
    if |a| == 0 {
      assert s[1..] == b;
    } else {
      assert s[1..] == a[1..] + [sep] + b;
      assert sep !in a[1..];
      SplitAppend(a[1..], sep, b);
      assert [a[0]] + a[1..] == a;
    }
  }

  /** Splitting undoes joining separator-free pieces. */
  lemma {:induction false} SplitJoin(parts: seq<string>, sep: char)
    requires |parts| >= 1 && SepFree(parts, sep)
    ensures Split(Join(parts, sep), sep) == parts
    decreases |parts|
  {
    if |parts| == 1 {
      SplitNoSep(parts[0], sep);
    } else {
      assert sep !in parts[0];
      SplitJoin(parts[1..], sep);
      SplitAppend(parts[0], sep, Join(parts[1..], sep));
      assert [parts[0]] + parts[1..] == parts;
    }
  }

  /** Splitting at a separator splits both sides independently. */
  lemma {:induction false} SplitConcat(a: string, sep: char, b: string)
    ensures Split(a + [sep] + b, sep) == Split(a, sep) + Split(b, sep)
    decreases |a|
  {
    var s := a + [sep] + b;
    if |a| == 0 {
      assert s[1..] == b;
    } else {
      assert s[1..] == a[1..] + [sep] + b;
      SplitConcat(a[1..], sep, b);
    }
  }

  /** Joining undoes splitting. */
  lemma {:induction false} JoinSplit(s: string, sep: char)
    ensures Join(Split(s, sep), sep) == s
    decreases |s|
  {
    if |s| > 0 {
      JoinSplit(s[1..], sep);
      var rest := Split(s[1..], sep);
      if s[0] == sep {
        assert ([""] + rest)[1..] == rest;
        assert s == [sep] + s[1..];
      } else {
        var parts := [[s[0]] + rest[0]] + rest[1..];
        if |rest| == 1 {
          assert s == [s[0]] + s[1..];
        } else {
          assert parts[1..] == rest[1..];
          assert Join(rest, sep) == rest[0] + [sep] + Join(rest[1..], sep);
          assert s == [s[0]] + s[1..];
        }
      }
    }
  }

  /** Joining a first piece onto the join of the rest. */
  lemma JoinCons(first: string, rest: seq<string>, sep: char)
    requires |rest| >= 1
    ensures Join([first] + rest, sep) == first + [sep] + Join(rest, sep)
  {
    assert ([first] + rest)[1..] == rest;
  }

  /** `Join` unfolded at a fixed length of three pieces. */
  lemma Join3(a: string, b: string, c: string, sep: char)
    ensures Join([a, b, c], sep) == a + [sep] + b + [sep] + c
  {
    JoinCons(b, [c], sep);
    JoinCons(a, [b, c], sep);
    assert [a] + [b, c] == [a, b, c];
  }

  /** `Join` unfolded at a fixed length of four pieces. */
  lemma Join4(a: string, b: string, c: string, d: string, sep: char)
    ensures Join([a, b, c, d], sep) == a + [sep] + b + [sep] + c + [sep] + d
  {
    JoinCons(a, [b, c, d], sep);
    assert [a] + [b, c, d] == [a, b, c, d];
    Join3(b, c, d, sep);
  }

  /** `Join` unfolded at a fixed length of five pieces. */
  lemma Join5(a: string, b: string, c: string, d: string, e: string, sep: char)
    ensures Join([a, b, c, d, e], sep) == a + [sep] + b + [sep] + c + [sep] + d + [sep] + e
  {
    JoinCons(a, [b, c, d, e], sep);
    assert [a] + [b, c, d, e] == [a, b, c, d, e];
    Join4(b, c, d, e, sep);
  }

  /** `Join` unfolded at a fixed length of six pieces. */
  lemma Join6(a: string, b: string, c: string, d: string, e: string, f: string, sep: char)
    ensures Join([a, b, c, d, e, f], sep) ==
            a + [sep] + b + [sep] + c + [sep] + d + [sep] + e + [sep] + f
  {
    JoinCons(a, [b, c, d, e, f], sep);
    assert [a] + [b, c, d, e, f] == [a, b, c, d, e, f];
    Join5(b, c, d, e, f, sep);
  }
}

=== FILE: properties.dfy ===
/** Safety properties of a run, stated on its result and on the trace of
    requests it issued. */
module Properties {
  import opened Wrappers
  import opened Errors
  import opened Configuration
  import opened Api
  import opened Workflow

  /** The stage of the workflow a request belongs to. */
  function Stage(call: Call): nat {
    match call
    case PingCall => 0
    case RetrieveCall(_, _, _) => 1
    case DeleteCall(_, _) => 2
    case CreateCall(_) => 3
  }

  /** How many requests in `t` belong to stage `k`. */
  function Count(t: seq<Request>, k: nat): nat {
    if |t| == 0 then 0 else (if Stage(t[0].call) == k then 1 else 0) + Count(t[1..], k)
  }

  /** Requests appear in strictly increasing stage order. */
  ghost predicate Staged(t: seq<Request>) {
    forall i, j :: 0 <= i < j < |t| ==> Stage(t[i].call) < Stage(t[j].call)
  }

  /** The address the run publishes, if it can learn one: the configured
      address, else the ping's `yourIp`. */
  ghost function Address(c: Config, o: Oracle): Option<string> {
    if c.ip.address != "" then Some(c.ip.address)
    else if o.ping.Received? then o.ping.value
    else None
  }

  /** `ip` is the address the run publishes. */
  ghost predicate Resolves(c: Config, o: Oracle, ip: string) {
    Address(c, o) == Some(ip)
  }

  /** The records query answered "SUCCESS" with `records`. */
  ghost predicate Listed(o: Oracle, records: seq<Record>) {
    o.records.Received? && o.records.value.status == Success && o.records.value.records == records
  }

  /** Appending one request adds one to its own stage's count only. */
  lemma {:induction false} CountAppend(t: seq<Request>, r: Request, k: nat)
    ensures Count(t + [r], k) == Count(t, k) + (if Stage(r.call) == k then 1 else 0)
    decreases |t|
  {
    if |t| > 0 {
      assert (t + [r])[1..] == t[1..] + [r];
      CountAppend(t[1..], r, k);
    } else {
      assert [r][1..] == [];
    }
  }

  /** A staged trace holds at most one request of each stage. */
  lemma {:induction false} StagedCountsAtMostOne(t: seq<Request>, k: nat)
    requires Staged(t)
    ensures Count(t, k) <= 1
    decreases |t|
  {
    if |t| > 0 {
      assert Staged(t[1..]) by {
        forall i, j | 0 <= i < j < |t| - 1
          ensures Stage(t[1..][i].call) < Stage(t[1..][j].call)
        {
          assert t[1..][i] == t[i + 1] && t[1..][j] == t[j + 1];
        }
      }
      StagedCountsAtMostOne(t[1..], k);
      if Stage(t[0].call) == k {
        StagedNoneLater(t[1..], k, t[0]);
      }
    }
  }

  /** In a staged trace, nothing after a request shares its stage. */
  lemma {:induction false} StagedNoneLater(t: seq<Request>, k: nat, first: Request)
    requires Staged([first] + t) && Stage(first.call) == k
    ensures Count(t, k) == 0
    decreases |t|
  {
    if |t| > 0 {
      var s := [first] + t;
      assert s[0] == first && s[1] == t[0];
      assert Staged([first] + t[1..]) by {
        forall i, j | 0 <= i < j < |t|
          ensures Stage(([first] + t[1..])[i].call) < Stage(([first] + t[1..])[j].call)
        {
          if i == 0 {
            assert ([first] + t[1..])[j] == s[j + 1];
          } else {
            assert ([first] + t[1..])[i] == s[i + 1];
            assert ([first] + t[1..])[j] == s[j + 1];
          }
        }
      }
      StagedNoneLater(t[1..], k, first);
    }
  }

  /** Appending a request of a later stage than all before keeps a trace staged. */
  lemma StagedAppend(t: seq<Request>, r: Request)
    requires Staged(t)
    requires forall i :: 0 <= i < |t| ==> Stage(t[i].call) < Stage(r.call)
    ensures Staged(t + [r])
  {
  }

  /** `ResolveIp` yields exactly the address `Address` describes, and fails
      with `NoIp` or `Network` otherwise. */
  lemma ResolveIpMeaning(c: Config, o: Oracle, ip: string)
    requires c.keys.Some?
    ensures ResolveIp(c, o).result == Ok(ip) <==> Resolves(c, o, ip)
    ensures ResolveIp(c, o).result.Err? <==> Address(c, o).None?
    ensures ResolveIp(c, o).result.Err? ==>
              ResolveIp(c, o).result.error == (if o.ping.Failed? then Network else NoIp)
  {
  }

  /** Every run issues its requests stage by stage: ping, query, delete,
      create, each at most once and never out of order. */
  lemma UpdateIsStaged(c: Config, o: Oracle)
    requires c.keys.Some?
    ensures Staged(Update(c, o).trace)
    ensures forall k :: Count(Update(c, o).trace, k) <= 1
  {
    var run := Update(c, o);
    var ip := ResolveIp(c, o);
    assert Staged(ip.trace);
    if ip.result.Ok? {
      var query := QueryRequest(c);
      var t1 := ip.trace + [query];
      StagedAppend(ip.trace, query);
      if o.records.Received? && o.records.value.status == Success {
        var records := o.records.value.records;
        if |records| > 0 && records[0].content != ip.result.value {
          var del := Request(EndpointFor(c.ip.ipv6), DeleteCall(c.domain.base, records[0].id),
                             KeysOnly(c.keys.value));
          StagedAppend(t1, del);
          var t2 := t1 + [del];
          if o.delete == Received(Some(Success)) {
            var x := records[0];
            StagedAppend(t2, CreateRequest(c, ip.result.value, x.ttl, x.prio, x.notes));
          }
        } else if |records| == 0 {
          StagedAppend(t1, CreateRequest(c, ip.result.value, None, None, None));
        }
      }
    }
    forall k ensures Count(run.trace, k) <= 1 {
      StagedCountsAtMostOne(run.trace, k);
    }
  }

  /** The endpoint host and the record type follow the `ipv6` flag: the
      dual-stack host and "AAAA" exactly when it is set, the IPv4-only host
      and "A" otherwise. */
  lemma FamilySelectsHostAndType(c: Config, o: Oracle)
    requires c.keys.Some?
    ensures var t := Update(c, o).trace;
      forall i :: 0 <= i < |t| ==>
        && (t[i].endpoint == "https://api.porkbun.com/api/json/v3" <==> c.ip.ipv6)
        && (t[i].endpoint == "https://api-ipv4.porkbun.com/api/json/v3" <==> !c.ip.ipv6)
    ensures var t := Update(c, o).trace;
      forall i :: 0 <= i < |t| && t[i].call.RetrieveCall? ==>
        t[i].call.recordType == (if c.ip.ipv6 then "AAAA" else "A")
    ensures var t := Update(c, o).trace;
      forall i :: 0 <= i < |t| && t[i].body.NewRecord? ==>
        t[i].body.record.recordType == (if c.ip.ipv6 then "AAAA" else "A")
  {
    var ipStep := ResolveIp(c, o);
    assert FollowsFamily(ipStep.trace, c.ip.ipv6);
    if ipStep.result.Ok? {
      var ip := ipStep.result.value;
      var query := QueryRequest(c);
      var t1 := ipStep.trace + [query];
      assert FollowsFamily(t1, c.ip.ipv6);
      if o.records.Received? && o.records.value.status == Success {
        var records := o.records.value.records;
        if |records| > 0 && records[0].content != ip {
          var t2 := t1 + [DeleteRequest(c, records[0].id)];
          assert FollowsFamily(t2, c.ip.ipv6);
          var x := records[0];
          assert FollowsFamily(t2 + [CreateRequest(c, ip, x.ttl, x.prio, x.notes)], c.ip.ipv6);
        } else if |records| == 0 {
          assert FollowsFamily(t1 + [CreateRequest(c, ip, None, None, None)], c.ip.ipv6);
        }
      }
    }
    assert FollowsFamily(Update(c, o).trace, c.ip.ipv6);
  }

  /** Every request of `t` goes to the host, and names the record type, that
      `ipv6` selects. */
  ghost predicate FollowsFamily(t: seq<Request>, ipv6: bool) {
    forall i :: 0 <= i < |t| ==>
      && t[i].endpoint == EndpointFor(ipv6)
      && (t[i].call.RetrieveCall? ==> t[i].call.recordType == RecordTypeFor(ipv6))
      && (t[i].body.NewRecord? ==> t[i].body.record.recordType == RecordTypeFor(ipv6))
  }

  /** A configured address is published verbatim and the ping endpoint is
      never called. */
  lemma FixedAddressSkipsPing(c: Config, o: Oracle)
    requires c.keys.Some? && c.ip.address != ""
    ensures Count(Update(c, o).trace, 0) == 0
    ensures var t := Update(c, o).trace;
      forall i :: 0 <= i < |t| && t[i].body.NewRecord? ==> t[i].body.record.content == c.ip.address
    ensures Update(c, o).result.Ok? ==> Update(c, o).result.value.ip == c.ip.address
  {
    UpdateIsStaged(c, o);
    var t := Update(c, o).trace;
    if |t| > 0 {
      assert Stage(t[0].call) == 1;
      NoPingAfterQuery(t);
    }
  }

  /** A staged trace that starts past the ping stage holds no ping. */
  lemma {:induction false} NoPingAfterQuery(t: seq<Request>)
    requires Staged(t) && |t| > 0 && Stage(t[0].call) >= 1
    ensures Count(t, 0) == 0
    decreases |t|
  {
    if |t| > 1 {
      assert Stage(t[1].call) > Stage(t[0].call);
      assert Staged(t[1..]) by {
        forall i, j | 0 <= i < j < |t| - 1
          ensures Stage(t[1..][i].call) < Stage(t[1..][j].call)
        {
          assert t[1..][i] == t[i + 1] && t[1..][j] == t[j + 1];
        }
      }
      NoPingAfterQuery(t[1..]);
    }
  }

  /** A ping answer without a string `yourIp` ends the run with `NoIp`
      right after the ping. */
  lemma MissingIpStops(c: Config, o: Oracle)
    requires c.keys.Some? && c.ip.address == "" && o.ping == Received(None)
    ensures Update(c, o).result == Err(NoIp)
    ensures |Update(c, o).trace| == 1 && Update(c, o).trace[0].call == PingCall
  {
  }

  /** A ping call that fails in transport or decoding ends the run with
      `Network`; the ping is the only request. */
  lemma FailedPingStops(c: Config, o: Oracle)
    requires c.keys.Some? && c.ip.address == "" && o.ping.Failed?
    ensures Update(c, o) ==
            Run(Err(Network), [Request(EndpointFor(c.ip.ipv6), PingCall, KeysOnly(c.keys.value))])
  {
  }

  /** A records query that does not answer "SUCCESS" ends the run with
      `NoRecords`; nothing is deleted or created. */
  lemma FailedQueryStops(c: Config, o: Oracle, ip: string)
    requires c.keys.Some? && Resolves(c, o, ip)
    requires o.records.Received? && o.records.value.status != Success
    ensures Update(c, o).result == Err(NoRecords)
    ensures Count(Update(c, o).trace, 2) == 0 && Count(Update(c, o).trace, 3) == 0
  {
    var ipStep := ResolveIp(c, o);
    var t := Update(c, o).trace;
    assert Count(ipStep.trace, 2) == 0 && Count(ipStep.trace, 3) == 0;
    CountAppend(ipStep.trace, t[|t| - 1], 2);
    CountAppend(ipStep.trace, t[|t| - 1], 3);
  }

  /** A records query that fails in transport or decoding ends the run with
      `Network`; nothing is deleted or created. */
  lemma FailedQueryCallStops(c: Config, o: Oracle, ip: string)
    requires c.keys.Some? && Resolves(c, o, ip) && o.records.Failed?
    ensures Update(c, o).result == Err(Network)
    ensures Count(Update(c, o).trace, 2) == 0 && Count(Update(c, o).trace, 3) == 0
  {
    ResolveIpMeaning(c, o, ip);
    var query := QueryRequest(c);
    PrefixHasNoWrites(c, o, query);
  }

  /** A first record that already holds the address ends the run with
      nothing deleted or created. */
  lemma MatchingRecordIsKept(c: Config, o: Oracle, ip: string, records: seq<Record>)
    requires c.keys.Some? && Resolves(c, o, ip) && Listed(o, records)
    requires |records| > 0 && records[0].content == ip
    ensures Update(c, o).result == Ok(AlreadyCurrent(if c.ip.ipv6 then "AAAA" else "A", ip))
    ensures Count(Update(c, o).trace, 2) == 0 && Count(Update(c, o).trace, 3) == 0
  {
    var ipStep := ResolveIp(c, o);
    var t := Update(c, o).trace;
    assert Count(ipStep.trace, 2) == 0 && Count(ipStep.trace, 3) == 0;
    CountAppend(ipStep.trace, t[|t| - 1], 2);
    CountAppend(ipStep.trace, t[|t| - 1], 3);
  }

  /** The requests before the delete or create of a run: the ping, if any,
      and the query; neither is a delete nor a create. */
  lemma PrefixHasNoWrites(c: Config, o: Oracle, query: Request)
    requires c.keys.Some? && query.call.RetrieveCall?
    ensures var t := ResolveIp(c, o).trace + [query];
      Count(t, 2) == 0 && Count(t, 3) == 0
  {
    var ipStep := ResolveIp(c, o);
    assert Count(ipStep.trace, 2) == 0 && Count(ipStep.trace, 3) == 0;
    CountAppend(ipStep.trace, query, 2);
    CountAppend(ipStep.trace, query, 3);
  }

  /** A stale first record is deleted by its id, and only then is the
      replacement created, carrying over the deleted record's `ttl`, `prio`
      and `notes`, named by the subdomain and holding the address. */
  lemma StaleRecordIsReplaced(c: Config, o: Oracle, ip: string, records: seq<Record>)
    requires c.keys.Some? && Resolves(c, o, ip) && Listed(o, records)
    requires |records| > 0 && records[0].content != ip
    requires o.delete == Received(Some(Success))
    ensures var t := Update(c, o).trace;
      && Count(t, 2) == 1 && Count(t, 3) == 1 && |t| >= 2
      && t[|t| - 2].call == DeleteCall(c.domain.base, records[0].id)
      && t[|t| - 1].call == CreateCall(c.domain.base)
      && t[|t| - 1].body.NewRecord?
      && t[|t| - 1].body.record.ttl == records[0].ttl
      && t[|t| - 1].body.record.prio == records[0].prio
      && t[|t| - 1].body.record.notes == records[0].notes
      && t[|t| - 1].body.record.name == c.domain.subdomain
      && t[|t| - 1].body.record.content == ip
    ensures Update(c, o).result.Ok? <==> o.create == Received(Some(Success))
    ensures o.create.Received? && o.create.value != Some(Success) ==>
              Update(c, o).result == Err(Create)
    ensures Update(c, o).result.Ok? ==> Update(c, o).result.value == Created(FullDomain(c.domain), ip)
  {
    var ipStep := ResolveIp(c, o);
    ResolveIpMeaning(c, o, ip);
    var query := QueryRequest(c);
    var t1 := ipStep.trace + [query];
    PrefixHasNoWrites(c, o, query);
    var del := Request(EndpointFor(c.ip.ipv6), DeleteCall(c.domain.base, records[0].id),
                       KeysOnly(c.keys.value));
    var t2 := t1 + [del];
    CountAppend(t1, del, 2);
    CountAppend(t1, del, 3);
    var x := records[0];
    var cr := CreateRequest(c, ip, x.ttl, x.prio, x.notes);
    CountAppend(t2, cr, 2);
    CountAppend(t2, cr, 3);
    assert Update(c, o).trace == t2 + [cr];
  }

  /** With no record of the type, nothing is deleted and one fresh record is
      created with no `ttl`, `prio` or `notes`. */
  lemma EmptyListCreatesFresh(c: Config, o: Oracle, ip: string)
    requires c.keys.Some? && Resolves(c, o, ip) && Listed(o, [])
    ensures var t := Update(c, o).trace;
      && Count(t, 2) == 0 && Count(t, 3) == 1
      && t[|t| - 1].call == CreateCall(c.domain.base)
      && t[|t| - 1].body.NewRecord?
      && t[|t| - 1].body.record.ttl.None?
      && t[|t| - 1].body.record.prio.None?
      && t[|t| - 1].body.record.notes.None?
      && t[|t| - 1].body.record.name == c.domain.subdomain
      && t[|t| - 1].body.record.content == ip
    ensures Update(c, o).result.Ok? <==> o.create == Received(Some(Success))
    ensures o.create.Received? && o.create.value != Some(Success) ==>
              Update(c, o).result == Err(Create)
  {
    var ipStep := ResolveIp(c, o);
    ResolveIpMeaning(c, o, ip);
    var query := QueryRequest(c);
    var t1 := ipStep.trace + [query];
    PrefixHasNoWrites(c, o, query);
    var cr := CreateRequest(c, ip, None, None, None);
    CountAppend(t1, cr, 2);
    CountAppend(t1, cr, 3);
    assert Update(c, o).trace == t1 + [cr];
  }

  /** A delete that does not answer "SUCCESS" ends the run; no create is
      ever issued after it. */
  lemma FailedDeleteBlocksCreate(c: Config, o: Oracle, ip: string, records: seq<Record>)
    requires c.keys.Some? && Resolves(c, o, ip) && Listed(o, records)
    requires |records| > 0 && records[0].content != ip
    requires o.delete != Received(Some(Success))
    ensures Count(Update(c, o).trace, 2) == 1 && Count(Update(c, o).trace, 3) == 0
    ensures o.delete.Received? ==> Update(c, o).result == Err(Delete)
    ensures o.delete.Failed? ==> Update(c, o).result == Err(Network)
  {
    var ipStep := ResolveIp(c, o);
    ResolveIpMeaning(c, o, ip);
    var query := QueryRequest(c);
    var t1 := ipStep.trace + [query];
    PrefixHasNoWrites(c, o, query);
    var del := Request(EndpointFor(c.ip.ipv6), DeleteCall(c.domain.base, records[0].id),
                       KeysOnly(c.keys.value));
    CountAppend(t1, del, 2);
    CountAppend(t1, del, 3);
    assert Update(c, o).trace == t1 + [del];
  }

  /** Only the first record returned by the query influences the run. */
  lemma OnlyFirstRecordMatters(c: Config, o: Oracle, first: Record, rest: seq<Record>)
    requires c.keys.Some?
    requires o.records.Received? && o.records.value.records == [first] + rest
    ensures Update(c, o) ==
            Update(c, o.(records := Received(o.records.value.(records := [first]))))
  {
  }

  /** Every delete a run issues, whatever the provider answers, targets the
      first listed record, and only when that record is stale. */
  lemma DeletesAreGuarded(c: Config, o: Oracle)
    requires c.keys.Some?
    ensures var t := Update(c, o).trace;
      forall i :: 0 <= i < |t| && t[i].call.DeleteCall? ==>
        && Address(c, o).Some?
        && o.records.Received? && o.records.value.status == Success
        && |o.records.value.records| > 0
        && o.records.value.records[0].content != Address(c, o).value
        && t[i].call == DeleteCall(c.domain.base, o.records.value.records[0].id)
  {
  }

  /** Every create a run issues, whatever the provider answers, follows a
      successful delete of a stale first record, or an empty list, and
      carries that record's `ttl`, `prio` and `notes` (none for an empty
      list), the subdomain as its name and the address as its content. */
  lemma CreatesAreGuarded(c: Config, o: Oracle)
    requires c.keys.Some?
    ensures var t := Update(c, o).trace;
      forall i :: 0 <= i < |t| && t[i].call.CreateCall? ==>
        && Address(c, o).Some?
        && o.records.Received? && o.records.value.status == Success
        && t[i].body.NewRecord?
        && t[i].body.record.content == Address(c, o).value
        && t[i].body.record.name == c.domain.subdomain
        && var records := o.records.value.records;
           if |records| > 0 then
             && records[0].content != Address(c, o).value
             && o.delete == Received(Some(Success))
             && t[i].body.record.ttl == records[0].ttl
             && t[i].body.record.prio == records[0].prio
             && t[i].body.record.notes == records[0].notes
           else
             t[i].body.record.ttl.None? && t[i].body.record.prio.None? && t[i].body.record.notes.None?
  {
  }

  /** A run succeeds exactly when the first listed record already held the
      address, or the create it issued answered "SUCCESS". */
  lemma SuccessMeansCurrent(c: Config, o: Oracle)
    requires c.keys.Some?
    ensures Update(c, o).result.Ok? <==>
              || (Address(c, o).Some? && o.records.Received? && o.records.value.status == Success
                  && |o.records.value.records| > 0
                  && o.records.value.records[0].content == Address(c, o).value)
              || (Count(Update(c, o).trace, 3) == 1 && o.create == Received(Some(Success)))
  {
    var ipStep := ResolveIp(c, o);
    if ipStep.result.Ok? {
      var ip := ipStep.result.value;
      ResolveIpMeaning(c, o, ip);
      var query := QueryRequest(c);
      PrefixHasNoWrites(c, o, query);
      if o.records.Received? && o.records.value.status == Success {
        var records := o.records.value.records;
        if |records| == 0 {
          EmptyListCreatesFresh(c, o, ip);
        } else if records[0].content != ip {
          if o.delete == Received(Some(Success)) {
            StaleRecordIsReplaced(c, o, ip, records);
          } else {
            FailedDeleteBlocksCreate(c, o, ip, records);
          }
        }
      }
    } else {
      ResolveIpMeaning(c, o, "");
      assert Count(Update(c, o).trace, 3) == 0;
    }
  }

  /** The credentials a run uses: those in the file, else the two
      environment variables. */
  ghost function Credentials(file: ConfigFile, env: Env): Keys
    requires file.Present?
    requires file.config.keys.None? ==> Readable(env, SecretKeyVar) && Readable(env, ApiKeyVar)
  {
    if file.config.keys.Some? then file.config.keys.value
    else Keys(env[SecretKeyVar].text, env[ApiKeyVar].text)
  }

  /** Every request of the program carries the credentials from the file or,
      when the file has none, from the environment; with neither, nothing is
      sent. */
  lemma CredentialsReachEveryRequest(file: ConfigFile, env: Env, o: Oracle)
    ensures var t := Main(file, env, o).trace;
      |t| > 0 ==>
        && file.Present?
        && (file.config.keys.None? ==> Readable(env, SecretKeyVar) && Readable(env, ApiKeyVar))
        && forall i :: 0 <= i < |t| ==> BodyKeys(t[i].body) == Credentials(file, env)
  {
  }

  /** Without credentials in the file or the environment the run fails with
      the error of the first variable that could not be read, before any
      request. */
  lemma MissingCredentialsStop(file: ConfigFile, env: Env, o: Oracle)
    requires file.Present? && file.config.keys.None?
    requires !(Readable(env, SecretKeyVar) && Readable(env, ApiKeyVar))
    ensures Main(file, env, o).trace == []
    ensures !Readable(env, SecretKeyVar) ==>
              Main(file, env, o).result == Err(Var(GetVar(env, SecretKeyVar).error))
    ensures Readable(env, SecretKeyVar) ==>
              Main(file, env, o).result == Err(Var(GetVar(env, ApiKeyVar).error))
  {
  }

  /** The first run, without a configuration file, writes the blank template
      and stops with `NoConfig` before any request. */
  lemma FirstRunWritesTemplate(env: Env, o: Oracle)
    ensures Read(Missing).written == Some(Default())
    ensures Main(Missing, env, o) == Run(Err(NoConfig("config.toml")), [])
  {
  }

  /** A filled-in configuration with credentials is used as written. */
  lemma PresentConfigIsUsed(c: Config, env: Env, o: Oracle)
    requires c.keys.Some?
    ensures Main(Present(c), env, o) == Update(c, o)
  {
  }
}

=== FILE: workflow.dfy ===
/** One run of the updater (`main` in src/main.rs) as a pure function. The
    provider's answers are an oracle given up front; the function returns the
    run's result together with every request it issued, in order. */
module Workflow {
  import opened Wrappers
  import opened Errors
  import opened Configuration
  import opened Api

  /** What a call brought back: the decoded value, or a transport, HTTP
      status or JSON decoding failure. */
  datatype Reply<+T> = Received(value: T) | Failed

  /** The provider's answer to each call the run may make. A JSON `status` or
      `yourIp` that is absent or not a string is `None`. */
  datatype Oracle = Oracle(
    ping: Reply<Option<string>>,
    records: Reply<RecordsResponse>,
    delete: Reply<Option<string>>,
    create: Reply<Option<string>>)

  /** How a successful run ended, with the values its status line reports. */
  datatype Outcome =
    | AlreadyCurrent(recordType: string, ip: string)
    | Created(fullDomain: string, ip: string)

  /** A finished run: its result and the requests issued, in order. */
  datatype Run = Run(result: Result<Outcome, Error>, trace: seq<Request>)

  /** A finished step that may yield a value for the next one. */
  datatype Step<+T> = Step(result: Result<T, Error>, trace: seq<Request>)

  const Success: string := "SUCCESS"

  /** `main`, lines 13-16: load the configuration and overlay the credentials
      from the environment when the file holds none. */
  function Prepare(file: ConfigFile, env: Env): (r: Result<Config, Error>)
    ensures r.Ok? ==> r.value.keys.Some?
    ensures r.Ok? ==> file.Present?
    ensures r.Ok? ==> r.value.domain == file.config.domain && r.value.ip == file.config.ip
    ensures file.Present? && file.config.keys.Some? ==> r == Ok(file.config)
    ensures file.Present? && file.config.keys.None? ==>
              (r.Ok? <==> Readable(env, SecretKeyVar) && Readable(env, ApiKeyVar))
  {
    match Read(file).result
    case Err(e) => Err(e)
    case Ok(c) =>
      if c.keys.Some? then Ok(c)
      else
        var (c', status) := EnvKeys(c, env);
        match status
        case Err(e) => Err(Var(e))
        case Ok(_) => Ok(c')
  }

  /** The address to publish: the configured one verbatim, else what the
      ping endpoint reports as `yourIp`. */
  function ResolveIp(c: Config, o: Oracle): (s: Step<string>)
    requires c.keys.Some?
    ensures c.ip.address != "" ==> s == Step(Ok(c.ip.address), [])
    ensures c.ip.address == "" ==>
              s.trace == [Request(EndpointFor(c.ip.ipv6), PingCall, KeysOnly(c.keys.value))]
    ensures c.ip.address == "" ==>
              (s.result.Ok? <==> o.ping.Received? && o.ping.value.Some?)
    ensures c.ip.address == "" && s.result.Ok? ==> s.result.value == o.ping.value.value
    ensures c.ip.address == "" && o.ping == Received(None) ==> s.result == Err(NoIp)
    ensures o.ping.Failed? && c.ip.address == "" ==> s.result == Err(Network)
  {
    if c.ip.address == "" then
      var trace := [Request(EndpointFor(c.ip.ipv6), PingCall, KeysOnly(TryKeys(c)))];
      match o.ping
      case Failed => Step(Err(Network), trace)
      case Received(yourIp) =>
        match yourIp
        case Some(ip) => Step(Ok(ip), trace)
        case None => Step(Err(NoIp), trace)
    else
      Step(Ok(c.ip.address), [])
  }

  /** The create request of a run, carrying over `ttl`, `prio` and `notes`. */
  function CreateRequest(c: Config, ip: string, ttl: Option<string>, prio: Option<string>,
                         notes: Option<string>): (r: Request)
    requires c.keys.Some?
    ensures r.call == CreateCall(c.domain.base)
    ensures r.body.NewRecord?
    ensures r.body.record.name == c.domain.subdomain
    ensures r.body.record.content == ip
  {
    var keys := TryKeys(c);
    Request(EndpointFor(c.ip.ipv6), CreateCall(c.domain.base),
      NewRecord(CreateRecord(keys.secretapikey, keys.apikey, c.domain.subdomain,
        RecordTypeFor(c.ip.ipv6), ip, ttl, prio, notes)))
  }

  /** The records query for the configured name and the selected record type. */
  function QueryRequest(c: Config): (r: Request)
    requires c.keys.Some?
    ensures r.call == RetrieveCall(c.domain.base, RecordTypeFor(c.ip.ipv6), c.domain.subdomain)
    ensures r.body == KeysOnly(c.keys.value)
  {
    Request(EndpointFor(c.ip.ipv6),
      RetrieveCall(c.domain.base, RecordTypeFor(c.ip.ipv6), c.domain.subdomain),
      KeysOnly(TryKeys(c)))
  }

  /** The delete request for the record with identifier `id`. */
  function DeleteRequest(c: Config, id: string): (r: Request)
    requires c.keys.Some?
    ensures r.call == DeleteCall(c.domain.base, id)
    ensures r.body == KeysOnly(c.keys.value)
  {
    Request(EndpointFor(c.ip.ipv6), DeleteCall(c.domain.base, id), KeysOnly(TryKeys(c)))
  }

  /** Issues the create request after `trace` and reads its status. */
  function CreateStep(c: Config, ip: string, ttl: Option<string>, prio: Option<string>,
                      notes: Option<string>, reply: Reply<Option<string>>,
                      trace: seq<Request>): (run: Run)
    requires c.keys.Some?
    ensures run.trace == trace + [CreateRequest(c, ip, ttl, prio, notes)]
    ensures run.result.Ok? <==> reply == Received(Some(Success))
    ensures run.result.Ok? ==> run.result.value == Created(FullDomain(c.domain), ip)
    ensures reply.Received? && reply.value != Some(Success) ==> run.result == Err(Create)
    ensures reply.Failed? ==> run.result == Err(Network)
  {
    var trace' := trace + [CreateRequest(c, ip, ttl, prio, notes)];
    match reply
    case Failed => Run(Err(Network), trace')
    case Received(status) =>
      if status == Some(Success) then Run(Ok(Created(FullDomain(c.domain), ip)), trace')
      else Run(Err(Create), trace')
  }

  /** Lines 69-124: act on the first record only. A matching record ends the
      run; a stale one is deleted before the replacement is created; with no
      record a fresh one is created. */
  function Reconcile(c: Config, ip: string, records: seq<Record>, o: Oracle,
                     trace: seq<Request>): (run: Run)
    requires c.keys.Some?
    ensures |records| > 0 && records[0].content == ip ==>
              run == Run(Ok(AlreadyCurrent(RecordTypeFor(c.ip.ipv6), ip)), trace)
    ensures |records| == 0 ==> run == CreateStep(c, ip, None, None, None, o.create, trace)
    ensures |records| > 0 && records[0].content != ip && o.delete == Received(Some(Success)) ==>
              run == CreateStep(c, ip, records[0].ttl, records[0].prio, records[0].notes, o.create,
                                trace + [DeleteRequest(c, records[0].id)])
    ensures |records| > 0 && records[0].content != ip && o.delete.Received?
            && o.delete.value != Some(Success) ==>
              run == Run(Err(Delete), trace + [DeleteRequest(c, records[0].id)])
    ensures |records| > 0 && records[0].content != ip && o.delete.Failed? ==>
              run == Run(Err(Network), trace + [DeleteRequest(c, records[0].id)])
  {
    if |records| > 0 then
      var x := records[0];
      if x.content == ip then
        Run(Ok(AlreadyCurrent(RecordTypeFor(c.ip.ipv6), ip)), trace)
      else
        var trace' := trace + [DeleteRequest(c, x.id)];
        match o.delete
        case Failed => Run(Err(Network), trace')
        case Received(status) =>
          if status == Some(Success) then
            CreateStep(c, ip, x.ttl, x.prio, x.notes, o.create, trace')
          else
            Run(Err(Delete), trace')
    else
      CreateStep(c, ip, None, None, None, o.create, trace)
  }

  /** `main` from line 18 on, once the credentials are in place. */
  function Update(c: Config, o: Oracle): (run: Run)
    requires c.keys.Some?
    ensures forall i :: 0 <= i < |run.trace| ==> run.trace[i].endpoint == EndpointFor(c.ip.ipv6)
    ensures forall i :: 0 <= i < |run.trace| ==> BodyKeys(run.trace[i].body) == c.keys.value
    ensures forall i :: 0 <= i < |run.trace| && run.trace[i].call.RetrieveCall? ==>
              run.trace[i].call == RetrieveCall(c.domain.base, RecordTypeFor(c.ip.ipv6), c.domain.subdomain)
    ensures 0 < |run.trace| <= 4
  {
    var ip := ResolveIp(c, o);
    match ip.result
    case Err(e) => Run(Err(e), ip.trace)
    case Ok(address) =>
      var trace := ip.trace + [QueryRequest(c)];
      match o.records
      case Failed => Run(Err(Network), trace)
      case Received(response) =>
        if response.status != Success then Run(Err(NoRecords), trace)
        else Reconcile(c, address, response.records, o, trace)
  }

  /** The whole program: load, overlay credentials, update. No request is
      issued before a configuration with credentials is in hand. */
  function Main(file: ConfigFile, env: Env, o: Oracle): (run: Run)
    ensures !file.Present? ==> run.trace == [] && run.result.Err?
    ensures file.Present? && file.config.keys.Some? ==> run == Update(file.config, o)
    ensures run.trace != [] ==> file.Present?
  {
    match Prepare(file, env)
    case Err(e) => Run(Err(e), [])
    case Ok(c) => Update(c, o)
  }
}

=== FILE: wrappers.dfy ===
/** Option and Result, shaped after Rust's `Option<T>` and `Result<T, E>`. */
module Wrappers {

  /** A value that may be absent. */
  datatype Option<+T> = None | Some(value: T)

  /** The outcome of a fallible step: a value, or the error that stopped it. */
  datatype Result<+T, +E> = Ok(value: T) | Err(error: E)
}
